=== FILE: README.md ===
# freeKidsLearn tracing core, modelled in Dafny

freeKidsLearn is a children's alphabet app: the child picks an alphabet
(French or Arabic), opens a letter and traces it with a finger on a canvas.
The canvas can draw a light-grey guide letter behind the strokes, but the
tracing screen never sets one. This project models the three
pieces of sequential logic behind that screen, as immutable values and pure
step functions, and proves properties of them.

- `drawing_view.dfy` (module `DrawingView`): the tracing canvas `DrawingView`.
  Its state is the live path, the live paint, the history of committed
  `(path, paint)` entries, the raster cache (absent until the view has a size;
  otherwise the list of entries baked into it), the guide letter and the
  guide colour. Touch events, `onSizeChanged`, `clearCanvas` and the setters
  are transitions; `onDraw` maps a state to its ordered list of layers. Paths
  are sequences of `MoveTo`/`LineTo` commands; points, colours and widths are
  carried but never computed on.
- `progress.dfy` (module `Progress`): the `LetterProgress` row and the
  `LetterProgressDao` queries over a table modelled as a map from the primary
  key `letterId` to the row.
- `letter_tracing.dfy` (module `LetterTracing`): the tracing screen
  `LetterTracingActivity`: the start index chosen from the launching intent,
  the Next / Previous / Clear buttons, the canvas reset on every letter
  display and the progress upsert `saveProgress`.
- `alphabet.dfy` (module `Alphabet`): the `AlphabetType` enum with Kotlin's
  `name` / `valueOf`, and the `Letter` record.
- `wrappers.dfy` (modules `Wrappers`, `KotlinInts`): `Option` for Kotlin
  nullables, `Result` for calls that throw, and the Kotlin `Int` / `Long`
  ranges with the wrap-around of `Int` addition.

The model follows the code where it differs from an idealised canvas:

- the paint is copied into the committed entry at UP, not at DOWN, so a colour
  or width change in the middle of a stroke applies to the whole stroke
  (`StyleCopiedAtUp`);
- an UP with no preceding DOWN still commits an entry, with an empty path
  (`LoneUpCommitsEmptyPath`), and a second DOWN before an UP adds a second
  contour to the same live path (`SecondDownSameStroke`);
- a MOVE with no DOWN since the last reset (after a clear, an UP, or a Next or
  Previous while the finger stays down) draws from the view's top-left corner,
  because `Path.lineTo` on an empty path first moves to the origin
  (`ClearThenMoveDrawsFromOrigin`); hence no path ever starts with a line-to
  (`ReachablePathsAnchored`);
- `setStrokeWidth` with a negative width keeps the old width, because
  `Paint.setStrokeWidth` ignores it (`SetStrokeWidth`);
- any action other than DOWN, MOVE and UP (a cancel, say) is refused and
  changes nothing: the live path survives and is committed by the next UP;
- a resize replaces the cache with a blank one but keeps the history, so the
  history can hold strokes the cache lacks (`ResizeKeepsHistoryDrawn`);
- committed strokes are drawn twice, from the cache bitmap and again from the
  history (`BakedStrokesDrawnTwice`);
- Next on the last letter saves nothing, so the last letter of a catalogue is
  never counted as completed on this screen (`LastLetterNeverCounted`);
- the screen never calls `setBackgroundLetter`: displaying a letter only clears
  the canvas, so on this screen the guide letter stays empty (`GuideNeverSet`).

## Model

| member | source | states |
|---|---|---|
| `KotlinInts.Inc32` | app/src/main/java/com/example/freekidslearn/LetterTracingActivity.kt:381 | Kotlin `Int` `+ 1`: one more below `Int.MAX_VALUE`, `Int.MIN_VALUE` at it; agrees with the two's-complement reduction modulo 2^32 |
| `Alphabet.AlphabetType.Name` | app/src/main/java/com/example/freekidslearn/LetterTracingActivity.kt:391 | Kotlin `Enum.name`, the string stored as a row's `alphabetType`: "ARABIC" or "FRENCH", and no other constant has the same name |
| `Alphabet.ValueOf` | app/src/main/java/com/example/freekidslearn/LetterTracingActivity.kt:159 | `valueOf` succeeds exactly on "ARABIC" and "FRENCH", returns the constant whose name is the input, and otherwise fails naming the input |
| `Alphabet.ValueOfName` | app/src/main/java/com/example/freekidslearn/data/AlphabetType.kt:33-51 | `valueOf(name(t)) == t` for both constants, and no two constants share a name |
| `DrawingView.Initial` | app/src/main/java/com/example/freekidslearn/ui/DrawingView.kt:31-74 | a new view has an empty live path and history, no cache, no guide letter, the #FF6B6B 24px paint and the #E0E0E0 guide colour |
| `DrawingView.PathLineTo` | app/src/main/java/com/example/freekidslearn/ui/DrawingView.kt:148-150 | `Path.lineTo`: the old path is kept as a prefix and the line-to is last; an empty path first gets a move-to at the origin, so the result grows by two commands, otherwise by one |
| `DrawingView.OnTouchEvent` | app/src/main/java/com/example/freekidslearn/ui/DrawingView.kt:137-169 | returns true exactly for DOWN, MOVE, UP; DOWN and MOVE keep the live path as a prefix; DOWN appends one move-to at the touch point; MOVE appends one line-to at the touch point, preceded by a move-to at the origin exactly when the live path is empty; UP commits the live path with the live paint as one new last history entry, bakes it into the cache only when a cache exists, and empties the live path; any other action changes nothing; the paint and guide never change |
| `DrawingView.OnSizeChanged` | app/src/main/java/com/example/freekidslearn/ui/DrawingView.kt:80-86 | the cache becomes a fresh blank one whatever it held; history, live path, paint and guide are kept |
| `DrawingView.ClearCanvas` | app/src/main/java/com/example/freekidslearn/ui/DrawingView.kt:188-198 | history and live path become empty, an existing cache is wiped and an absent one stays absent, guide letter and paints are kept |
| `DrawingView.SetBackgroundLetter` | app/src/main/java/com/example/freekidslearn/ui/DrawingView.kt:180-183 | the guide letter becomes the argument and no other field changes |
| `DrawingView.SetDrawingColor` | app/src/main/java/com/example/freekidslearn/ui/DrawingView.kt:203-205 | only the live paint's colour changes |
| `DrawingView.SetStrokeWidth` | app/src/main/java/com/example/freekidslearn/ui/DrawingView.kt:210-212 | only the live paint's width changes, and only for a width of at least 0; a negative width leaves the view as it was, as `Paint.setStrokeWidth` does |
| `DrawingView.SetLetterColor` | app/src/main/java/com/example/freekidslearn/ui/DrawingView.kt:217-220 | only the guide colour changes |
| `DrawingView.HistoryLayers` | app/src/main/java/com/example/freekidslearn/ui/DrawingView.kt:123-125 | one stroke layer per history entry, at the same position, with that entry's own path and paint |
| `DrawingView.OnDraw` | app/src/main/java/com/example/freekidslearn/ui/DrawingView.kt:93-131 | layers back to front: the guide text first and only when the letter is non-empty, then the cache bitmap only when allocated, then every history entry in insertion order, and always last the live path in the live paint |
| `DrawingView.GuideLetterOnlyMovesGuideLayer` | app/src/main/java/com/example/freekidslearn/ui/DrawingView.kt:180-183 | after setting the guide letter, a non-empty letter is drawn first in the guide colour and every layer after the guide is exactly as before |
| `DrawingView.GuideColorOnlyRecolorsGuide` | app/src/main/java/com/example/freekidslearn/ui/DrawingView.kt:217-220 | setting the guide colour recolours the guide layer and leaves the number and content of all other layers unchanged |
| `DrawingView.ApplyKeepsCacheConsistent` | app/src/main/java/com/example/freekidslearn/ui/DrawingView.kt:84-194 | every single transition keeps the cache equal to a suffix of the history |
| `DrawingView.RunKeepsCacheConsistent` | app/src/main/java/com/example/freekidslearn/ui/DrawingView.kt:84-194 | over any sequence of events the cache, when allocated, holds exactly the latest history entries in order, never an entry the history lacks |
| `DrawingView.ApplyKeepsPathsAnchored` | app/src/main/java/com/example/freekidslearn/ui/DrawingView.kt:141-161 | every single transition keeps the live path and every committed path empty or opened by a move-to |
| `DrawingView.RunKeepsPathsAnchored` | app/src/main/java/com/example/freekidslearn/ui/DrawingView.kt:141-161 | the same over any sequence of events |
| `DrawingView.ReachablePathsAnchored` | app/src/main/java/com/example/freekidslearn/ui/DrawingView.kt:31-161 | no view reachable from a fresh one holds a path that starts with a line-to |
| `DrawingView.ClearThenMoveStartsAtOrigin` | app/src/main/java/com/example/freekidslearn/ui/DrawingView.kt:188-190 | a MOVE right after `clearCanvas` leaves the live path as a move-to at the origin and a line-to at the touch point |
| `DrawingView.HistoryAppendOnly` | app/src/main/java/com/example/freekidslearn/ui/DrawingView.kt:153-161 | without a clear, the history only grows, by exactly one entry per UP (with or without a DOWN before it), and committed entries are never altered, setters included |
| `DrawingView.ClearThenHistory` | app/src/main/java/com/example/freekidslearn/ui/DrawingView.kt:188-190 | after a clear followed by events none of which is a clear, the history holds exactly one entry per UP among those events |
| `DrawingView.MovesExtendLivePath` | app/src/main/java/com/example/freekidslearn/ui/DrawingView.kt:147-150 | n move events append exactly n line-to vertices in order, with no filtering, and change nothing else; on an empty live path the first is preceded by a move-to at the origin |
| `DrawingView.GestureCommitsOneStroke` | app/src/main/java/com/example/freekidslearn/ui/DrawingView.kt:143-161 | a DOWN, n MOVEs and an UP commit exactly one entry (the prior live path, a move-to at the start, one line-to per move, the paint current at UP), empty the live path and bake the entry exactly when a cache exists |
| `DrawingView.StyleCopiedAtUp` | app/src/main/java/com/example/freekidslearn/ui/DrawingView.kt:157-159 | a colour change between DOWN and UP is the colour of the committed stroke |
| `DrawingView.StyleChangeSparesCommitted` | app/src/main/java/com/example/freekidslearn/ui/DrawingView.kt:203-212 | changing colour and width leaves earlier entries as they were and applies to the next stroke; a negative width is ignored, so the stroke keeps the old width |
| `DrawingView.ResizeKeepsHistoryDrawn` | app/src/main/java/com/example/freekidslearn/ui/DrawingView.kt:80-90 | after a resize the cache bitmap is empty but every history entry is still drawn, from the list |
| `DrawingView.BakedStrokesDrawnTwice` | app/src/main/java/com/example/freekidslearn/ui/DrawingView.kt:116-125 | in a reachable view every entry baked into the cache is also drawn again as a stroke layer above the bitmap |
| `DrawingView.ClearLeavesGuideOnly` | app/src/main/java/com/example/freekidslearn/ui/DrawingView.kt:188-198 | after a clear, onDraw paints only the guide (if any), an empty bitmap (if allocated) and an empty live path |
| `DrawingView.ThreePointStroke` | app/src/main/java/com/example/freekidslearn/ui/DrawingView.kt:143-161 | down at (10,10), moves to (20,10) and (30,10), up: one committed stroke of three vertices in the default paint |
| `DrawingView.SecondDownSameStroke` | app/src/main/java/com/example/freekidslearn/ui/DrawingView.kt:143-145 | two DOWNs then an UP commit one path with two move-to contours |
| `DrawingView.LoneUpCommitsEmptyPath` | app/src/main/java/com/example/freekidslearn/ui/DrawingView.kt:153-161 | an UP on a fresh view commits one entry with an empty path |
| `Progress.NewLetterProgress` | app/src/main/java/com/example/freekidslearn/data/LetterProgress.kt:42-73 | a row built from id and alphabet alone has `timesCompleted` 0 and `lastCompletedDate` 0 (never completed) |
| `Progress.Keyed` | app/src/main/java/com/example/freekidslearn/data/LetterProgress.kt:48-49 | the `@PrimaryKey` constraint on `letterId`: every row is filed under its own id, so two rows with the same `letterId` are the same row and every row is found under its id |
| `Progress.AtMostOneRowPerLetter` | app/src/main/java/com/example/freekidslearn/data/LetterProgress.kt:48-49 | under the primary-key constraint two rows with the same `letterId` are the same row |
| `Progress.GetProgressById` | app/src/main/java/com/example/freekidslearn/data/LetterProgressDao.kt:73-74 | returns a row exactly when the table has one for the id, that row carrying the id; null otherwise |
| `Progress.InsertProgress` | app/src/main/java/com/example/freekidslearn/data/LetterProgressDao.kt:90-91 | the row is present afterwards, replacing any row with its id; the key set gains exactly its id; every other row is unchanged; the primary key still holds |
| `Progress.UpdateProgress` | app/src/main/java/com/example/freekidslearn/data/LetterProgressDao.kt:102-103 | overwrites the row with the same id when there is one, leaves the table unchanged when there is none, and never touches another row |
| `Progress.DeleteAllProgress` | app/src/main/java/com/example/freekidslearn/data/LetterProgressDao.kt:114-115 | afterwards no id reads back a row |
| `Progress.GetProgressByType` | app/src/main/java/com/example/freekidslearn/data/LetterProgressDao.kt:58-59 | exactly the table's rows whose `alphabetType` equals the argument |
| `Progress.InsertThenGet` | app/src/main/java/com/example/freekidslearn/data/LetterProgressDao.kt:73-91 | after inserting a row, reading its id returns it and reading any other id returns what it did before |
| `Progress.InsertIdempotent` | app/src/main/java/com/example/freekidslearn/data/LetterProgressDao.kt:90-91 | inserting the same row twice equals inserting it once |
| `Progress.UpdateVersusInsert` | app/src/main/java/com/example/freekidslearn/data/LetterProgressDao.kt:90-103 | on an existing id update and insert-with-replace agree; on a missing id update adds nothing |
| `Progress.ByTypeAfterInsert` | app/src/main/java/com/example/freekidslearn/data/LetterProgressDao.kt:58-115 | an inserted row is found under its own type and no other; after delete-all no type finds anything |
| `Progress.ByTypePartition` | app/src/main/java/com/example/freekidslearn/data/LetterProgressDao.kt:58-59 | results for two different types are disjoint subsets of the table |
| `LetterTracing.AlphabetOf` | app/src/main/java/com/example/freekidslearn/LetterTracingActivity.kt:157-159 | an absent alphabet extra means FRENCH; a present one succeeds exactly when it names a constant, which is the result, and otherwise fails with that name |
| `LetterTracing.IndexOfFirst` | app/src/main/java/com/example/freekidslearn/LetterTracingActivity.kt:175 | the first position whose letter has the id, or -1 exactly when no letter has it |
| `LetterTracing.StartIndex` | app/src/main/java/com/example/freekidslearn/LetterTracingActivity.kt:170-175 | on a non-empty catalogue: a valid index, the first match when some letter has the id, 0 otherwise |
| `LetterTracing.DisplayCurrentLetter` | app/src/main/java/com/example/freekidslearn/LetterTracingActivity.kt:312-325 | displaying a letter clears the canvas: history and live path empty, an allocated cache wiped and an absent one left absent, live paint, guide letter and guide colour kept; nothing outside the view changes |
| `LetterTracing.OnCreate` | app/src/main/java/com/example/freekidslearn/LetterTracingActivity.kt:150-194 | fails exactly on an unknown alphabet name or an empty catalogue (even with an id supplied); otherwise opens the loaded catalogue at the first letter with the requested id (default: the first letter's id), or 0, on a cleared fresh view, table untouched |
| `LetterTracing.DefaultStartsAtFirst` | app/src/main/java/com/example/freekidslearn/LetterTracingActivity.kt:170-175 | without a letter extra the start index is 0 |
| `LetterTracing.DefaultAlphabetIsFrench` | app/src/main/java/com/example/freekidslearn/LetterTracingActivity.kt:157-159 | without an alphabet extra the screen opens FRENCH, and succeeds whenever the French catalogue is non-empty |
| `LetterTracing.SaveProgress` | app/src/main/java/com/example/freekidslearn/LetterTracingActivity.kt:364-403 | an existing row keeps id and alphabet, gets counter + 1 (Kotlin `Int`) and date `now`; a missing row is created with count 1, date `now` and the alphabet's name; no other row changes; the primary key still holds |
| `LetterTracing.SaveTimes` | app/src/main/java/com/example/freekidslearn/LetterTracingActivity.kt:373-395 | repeated saves keep the primary-key constraint and touch no other letter's row; from no row, n saves (n within `Int` range) leave a row counting n under the first save's alphabet, and add only that letter's key |
| `LetterTracing.SaveCountsCompletions` | app/src/main/java/com/example/freekidslearn/LetterTracingActivity.kt:373-395 | n saves of a new letter leave its counter at exactly n, under the first save's alphabet; the only key added is the letter's, and all other rows are as they were |
| `LetterTracing.OnNext` | app/src/main/java/com/example/freekidslearn/LetterTracingActivity.kt:261-276 | before the last letter: saves progress for the letter shown before the press, then advances by exactly one and clears the canvas; on the last letter nothing changes; the screen invariant is kept |
| `LetterTracing.NextCountsShownLetter` | app/src/main/java/com/example/freekidslearn/LetterTracingActivity.kt:263-268 | Next leaves a row dated `now` for the letter that was shown: its counter goes up by one when it was below `Int.MAX_VALUE` (the wrap at the maximum is stated by `SaveProgress`), and is 1 for a first completion |
| `LetterTracing.OnPrevious` | app/src/main/java/com/example/freekidslearn/LetterTracingActivity.kt:281-288 | after the first letter: steps back by exactly one and clears the canvas; on the first letter nothing changes; progress is never touched; the invariant is kept |
| `LetterTracing.OnClear` | app/src/main/java/com/example/freekidslearn/LetterTracingActivity.kt:254-256 | the canvas is cleared and nothing else on the screen changes: index, alphabet, catalogue and table are as before |
| `LetterTracing.Step` | app/src/main/java/com/example/freekidslearn/LetterTracingActivity.kt:244-296 | every button press or canvas event keeps the screen invariant and the catalogue |
| `LetterTracing.SessionStaysValid` | app/src/main/java/com/example/freekidslearn/LetterTracingActivity.kt:263-287 | through any sequence of presses and touches, `0 <= index < size` holds, the table keeps its primary key and the cache stays consistent with the history |
| `LetterTracing.CreatedScreenValid` | app/src/main/java/com/example/freekidslearn/LetterTracingActivity.kt:170-193 | every screen created from a keyed table satisfies the invariant |
| `LetterTracing.LastLetterNeverCounted` | app/src/main/java/com/example/freekidslearn/LetterTracingActivity.kt:263-275 | Next saves only for the letter before the last one reached, so over any sequence of presses and touches the last letter's row (when its id is not shared) is never created or changed |
| `LetterTracing.IndexMovesByOne` | app/src/main/java/com/example/freekidslearn/LetterTracingActivity.kt:261-288 | Next moves the index forward by at most one, Previous back by at most one, nothing else moves it |
| `LetterTracing.OnlyNextWritesProgress` | app/src/main/java/com/example/freekidslearn/LetterTracingActivity.kt:261-288 | only Next changes the table, and only the row of the letter shown before the press: no other id is added and every other existing row is unchanged |
| `LetterTracing.GuideNeverSet` | app/src/main/java/com/example/freekidslearn/LetterTracingActivity.kt:254-325 | no event on the screen changes the guide letter, the guide colour or the alphabet, so a screen opened with no guide letter never shows one |
| `LetterTracing.ClearThenMoveDrawsFromOrigin` | app/src/main/java/com/example/freekidslearn/LetterTracingActivity.kt:254-256 | on a valid screen, Clear followed by a MOVE of a finger still on the canvas leaves a live path drawn from the top-left corner to the touch point |

## Left out

- Rasterisation: pixels, anti-aliasing, dithering, font metrics, glyph centring and the guide size `min(w, h) * 0.7` are graphics-library and floating-point behaviour; layers are symbolic, and the view size is not a parameter of `OnSizeChanged`.
- `DrawingView.OnSizeChanged`: does not model `Bitmap.createBitmap` throwing for a non-positive width or height, which is library behaviour outside the repository.
- `invalidate()` and the redraw scheduling are not modelled; `onDraw` is a function that may be applied to any state.
- Coordinates and widths are `real` values and colours Kotlin `Int` values, carried but never computed on; a NaN width, which `Paint.setStrokeWidth` also ignores, is not representable.
- The paint's fixed attributes (stroke style, round join and cap, anti-aliasing) are identical for every paint and are not carried.
- The sound subsystem (text-to-speech and media player) is audio I/O; playing the letter and the success sound are not modelled.
- Loading the catalogue from JSON assets is I/O: `OnCreate` takes the loader as a function parameter.
- The database builder and its singleton are concurrency and library code; the table is a value passed in and out.
- The coroutine around `saveProgress` is treated as one atomic step; the clock reading is a parameter.
- `getProgressByType` returns a set rather than an observable list, since the query has no ordering.
- Text views, toolbar, toasts and the other screens are view binding and navigation with no logic to state.

=== FILE: alphabet.dfy ===
/** The static letter data: the two supported alphabets and one catalogue entry. */
module Alphabet {
  import opened Wrappers
  import opened KotlinInts

  datatype AlphabetType = ARABIC | FRENCH
  {
    /** Kotlin's `Enum.name`: the constant's identifier as a string, which
        is what the progress table stores in `alphabetType`. */
    function Name(): (r: string)
      ensures r == "ARABIC" || r == "FRENCH"
      ensures r == "ARABIC" <==> this == ARABIC
      ensures r == "FRENCH" <==> this == FRENCH
    {
      match this
      case ARABIC => "ARABIC"
      case FRENCH => "FRENCH"
    }
  }

  /** Why `AlphabetType.valueOf` throws: the string names no constant. */
  datatype ValueOfError = NoEnumConstant(name: string)

  /** Kotlin's `AlphabetType.valueOf(s)`: the constant whose name is exactly `s`,
      or an `IllegalArgumentException` for any other string (no trimming, no
      case folding). */
  function ValueOf(s: string): (r: Result<AlphabetType, ValueOfError>)
    ensures r.Success? <==> s == "ARABIC" || s == "FRENCH"
    ensures r.Success? ==> r.value.Name() == s
    ensures r.Failure? ==> r.error == NoEnumConstant(s)
  {
    if s == "ARABIC" then Success(ARABIC)
    else if s == "FRENCH" then Success(FRENCH)
    else Failure(NoEnumConstant(s))
  }

  /** `valueOf` inverts `name`, and the two names are distinct. */
  lemma ValueOfName(t: AlphabetType)
    ensures ValueOf(t.Name()) == Success(t)
    ensures forall u: AlphabetType :: u.Name() == t.Name() ==> u == t
  {
  }

  /** One letter of a catalogue. `kind` is the source's `type` field (a Dafny
      keyword); the optional fields are Kotlin nullables. */
  datatype Letter = Letter(
    id: Int32,
    letter: string,
    name: string,
    kind: string,
    animal: Option<string>,
    soundFile: Option<string>)
}

=== FILE: drawing_view.dfy ===
/** The tracing canvas of `ui/DrawingView.kt` as a state machine over
    immutable values. Each Android callback (`onTouchEvent`, `onSizeChanged`,
    `clearCanvas`, the setters) is a function from the view's state to its next
    state, and `onDraw` is a function from the state to the ordered list of
    layers it paints. Pixels are not modelled: the raster cache is the list of
    entries that were baked into it. */
module DrawingView {
  import opened Wrappers
  import opened KotlinInts

  /** A touch position in view pixels. Coordinates are carried, never computed on. */
  datatype Point = Point(x: real, y: real)

  /** One command of an `android.graphics.Path`; only these two are ever issued. */
  datatype PathCommand = MoveTo(p: Point) | LineTo(p: Point)

  type Path = seq<PathCommand>

  /** The top-left corner of the view, where a path that has no current
      point starts. */
  const ORIGIN: Point := Point(0.0, 0.0)

  /** `Path.lineTo`: a path with no move-to since its last reset first gets
      one at the origin, then the line-to is appended. */
  function PathLineTo(path: Path, p: Point): (r: Path)
    ensures |r| == |path| + (if path == [] then 2 else 1)
    ensures r[..|path|] == path && r[|r| - 1] == LineTo(p)
    ensures path == [] ==> r[0] == MoveTo(ORIGIN)
  {
    if path == [] then [MoveTo(ORIGIN), LineTo(p)] else path + [LineTo(p)]
  }

  /** A live path the view can hold: empty, or opened by a move-to. */
  predicate Anchored(path: Path)
  {
    path == [] || path[0].MoveTo?
  }

  /** The part of an `android.graphics.Paint` the view ever changes. Anti-aliasing,
      stroke-only style and round joins and caps are fixed for every paint the
      view creates, so they are not carried. */
  datatype Paint = Paint(color: Int32, strokeWidth: real)

  /** `Color.parseColor("#FF6B6B")`: the opaque ARGB word 0xFFFF6B6B read as a signed Kotlin `Int`. */
  const DEFAULT_STROKE_COLOR: Int32 := 0xFFFF_6B6B - 0x1_0000_0000
  const DEFAULT_STROKE_WIDTH: real := 24.0
  /** `Color.parseColor("#E0E0E0")`: the light grey of the guide letter. */
  const DEFAULT_LETTER_COLOR: Int32 := 0xFFE0_E0E0 - 0x1_0000_0000

  /** A committed stroke: the path together with the paint it is drawn with. */
  datatype PathData = PathData(path: Path, paint: Paint)

  /** The view's fields: the live path, the live paint, the committed history,
      the raster cache (absent until a size is known; otherwise the entries
      baked into it, oldest first), the guide letter and the guide's colour. */
  datatype State = State(
    drawPath: Path,
    drawPaint: Paint,
    paths: seq<PathData>,
    cache: Option<seq<PathData>>,
    backgroundLetter: string,
    letterColor: Int32)

  /** A freshly constructed view. */
  function Initial(): (s: State)
    ensures s.drawPath == [] && s.paths == [] && s.cache == None
    ensures s.drawPaint == Paint(DEFAULT_STROKE_COLOR, DEFAULT_STROKE_WIDTH)
    ensures s.backgroundLetter == "" && s.letterColor == DEFAULT_LETTER_COLOR
  {
    State([], Paint(DEFAULT_STROKE_COLOR, DEFAULT_STROKE_WIDTH), [], None, "", DEFAULT_LETTER_COLOR)
  }

  // ---------------------------------------------------------------------------
  // Touch input
  // ---------------------------------------------------------------------------

  /** `MotionEvent` action codes the view reacts to; every other code (cancel,
      a second finger going down, outside, ...) falls to the `else` branch. */
  const ACTION_DOWN: Int32 := 0
  const ACTION_UP: Int32 := 1
  const ACTION_MOVE: Int32 := 2

  datatype MotionEvent = MotionEvent(action: Int32, pos: Point)

  /** The next state and the `Boolean` returned to the framework. */
  datatype TouchResult = TouchResult(state: State, handled: bool)

  /** The entry an `ACTION_UP` commits: copies of the live path and the live paint. */
  function Snapshot(s: State): PathData
  {
    PathData(s.drawPath, s.drawPaint)
  }

  /** `onTouchEvent`. DOWN appends a move-to without resetting the live path;
      MOVE appends one line-to, after a move-to at the origin when the live
      path is empty (no DOWN since the last reset); UP bakes the live path into the cache when there
      is one, appends a snapshot of path and paint to the history and resets
      the live path, whether or not a DOWN came first. Any other action is
      refused and changes nothing. */
  function OnTouchEvent(s: State, e: MotionEvent): (r: TouchResult)
    ensures r.handled <==> e.action == ACTION_DOWN || e.action == ACTION_MOVE || e.action == ACTION_UP
    ensures !r.handled ==> r.state == s
    // nothing but the live path, the history and the cache ever changes on a touch
    ensures r.state.drawPaint == s.drawPaint
    ensures r.state.backgroundLetter == s.backgroundLetter && r.state.letterColor == s.letterColor
    ensures e.action == ACTION_DOWN || e.action == ACTION_MOVE ==>
              && |r.state.drawPath| > |s.drawPath|
              && r.state.drawPath[..|s.drawPath|] == s.drawPath
              && r.state.paths == s.paths && r.state.cache == s.cache
    ensures e.action == ACTION_DOWN ==>
              |r.state.drawPath| == |s.drawPath| + 1 && r.state.drawPath[|s.drawPath|] == MoveTo(e.pos)
    ensures e.action == ACTION_MOVE && s.drawPath != [] ==>
              |r.state.drawPath| == |s.drawPath| + 1 && r.state.drawPath[|s.drawPath|] == LineTo(e.pos)
    ensures e.action == ACTION_MOVE && s.drawPath == [] ==>
              r.state.drawPath == [MoveTo(ORIGIN), LineTo(e.pos)]
    ensures e.action == ACTION_UP ==>
              && r.state.drawPath == []
              && |r.state.paths| == |s.paths| + 1
              && r.state.paths[..|s.paths|] == s.paths
              && r.state.paths[|s.paths|] == PathData(s.drawPath, s.drawPaint)
              && r.state.cache.Some? == s.cache.Some?
              && (s.cache.Some? ==> r.state.cache.value == s.cache.value + [PathData(s.drawPath, s.drawPaint)])
  {
    if e.action == ACTION_DOWN then
      TouchResult(s.(drawPath := s.drawPath + [MoveTo(e.pos)]), true)
    else if e.action == ACTION_MOVE then
      TouchResult(s.(drawPath := PathLineTo(s.drawPath, e.pos)), true)
    else if e.action == ACTION_UP then
      var baked := match s.cache
        case Some(c) => Some(c + [Snapshot(s)])
        case None => None;
      TouchResult(s.(paths := s.paths + [Snapshot(s)], cache := baked, drawPath := []), true)
    else
      TouchResult(s, false)
  }

  // ---------------------------------------------------------------------------
  // Size, clearing and the public setters
  // ---------------------------------------------------------------------------

  /** `onSizeChanged`: a new blank bitmap replaces the cache whatever its
      previous contents; the history and the live path are kept. */
  function OnSizeChanged(s: State): (r: State)
    ensures r.cache == Some([])
    ensures r.paths == s.paths && r.drawPath == s.drawPath && r.drawPaint == s.drawPaint
    ensures r.backgroundLetter == s.backgroundLetter && r.letterColor == s.letterColor
  {
    s.(cache := Some([]))
  }

  /** `clearCanvas`: empties the history and the live path, wipes an existing
      cache to transparent, and keeps the guide letter and the paints. */
  function ClearCanvas(s: State): (r: State)
    ensures r.paths == [] && r.drawPath == []
    ensures r.cache.Some? <==> s.cache.Some?
    ensures r.cache.Some? ==> r.cache.value == []
    ensures r.drawPaint == s.drawPaint
    ensures r.backgroundLetter == s.backgroundLetter && r.letterColor == s.letterColor
  {
    var wiped := match s.cache
      case Some(_) => Some([])
      case None => None;
    s.(paths := [], drawPath := [], cache := wiped)
  }

  /** `setBackgroundLetter`: replaces the guide letter and nothing else. */
  function SetBackgroundLetter(s: State, letter: string): (r: State)
    ensures r.backgroundLetter == letter
    ensures r.(backgroundLetter := s.backgroundLetter) == s
  {
    s.(backgroundLetter := letter)
  }

  /** `setDrawingColor`: changes the colour of the live paint only. */
  function SetDrawingColor(s: State, color: Int32): (r: State)
    ensures r.drawPaint.color == color && r.drawPaint.strokeWidth == s.drawPaint.strokeWidth
    ensures r.(drawPaint := s.drawPaint) == s
  {
    s.(drawPaint := s.drawPaint.(color := color))
  }

  /** `setStrokeWidth`: changes the width of the live paint only.
      `Paint.setStrokeWidth` ignores a negative width and keeps the old one. */
  function SetStrokeWidth(s: State, width: real): (r: State)
    ensures width >= 0.0 ==> r.drawPaint.strokeWidth == width
    ensures width < 0.0 ==> r == s
    ensures r.drawPaint.color == s.drawPaint.color
    ensures r.(drawPaint := s.drawPaint) == s
  {
    if width >= 0.0 then s.(drawPaint := s.drawPaint.(strokeWidth := width)) else s
  }

  /** `setLetterColor`: changes the guide letter's colour only. */
  function SetLetterColor(s: State, color: Int32): (r: State)
    ensures r.letterColor == color
    ensures r.(letterColor := s.letterColor) == s
  {
    s.(letterColor := color)
  }

  // ---------------------------------------------------------------------------
  // Rendering
  // ---------------------------------------------------------------------------

  /** One `Canvas` call of `onDraw`: the guide text, the cache bitmap (the
      entries baked into it), or one stroked path. */
  datatype Layer =
    | GuideText(text: string, color: Int32)
    | CacheBitmap(baked: seq<PathData>)
    | Stroke(path: Path, paint: Paint)

  function GuideLayers(s: State): seq<Layer>
  {
    if s.backgroundLetter != "" then [GuideText(s.backgroundLetter, s.letterColor)] else []
  }

  function CacheLayers(s: State): seq<Layer>
  {
    match s.cache
    case Some(c) => [CacheBitmap(c)]
    case None => []
  }

  function HistoryLayers(ps: seq<PathData>): (ls: seq<Layer>)
    ensures |ls| == |ps|
    ensures forall i :: 0 <= i < |ps| ==> ls[i] == Stroke(ps[i].path, ps[i].paint)
  {
    if ps == [] then [] else [Stroke(ps[0].path, ps[0].paint)] + HistoryLayers(ps[1..])
  }

  /** Everything `onDraw` paints above the guide letter. */
  function PaintedLayers(s: State): seq<Layer>
  {
    CacheLayers(s) + HistoryLayers(s.paths) + [Stroke(s.drawPath, s.drawPaint)]
  }

  /** Number of layers drawn before the history: the guide, then the cache. */
  function HistoryOffset(s: State): (n: nat)
    ensures n == (if s.backgroundLetter != "" then 1 else 0) + (if s.cache.Some? then 1 else 0)
  {
    |GuideLayers(s)| + |CacheLayers(s)|
  }

  /** `onDraw`: back to front, the guide letter when it is non-empty, the cache
      when it is allocated, every history entry in insertion order, and last
      the live path with the live paint, drawn even when empty. */
  function OnDraw(s: State): (layers: seq<Layer>)
    ensures |layers| == HistoryOffset(s) + |s.paths| + 1
    ensures layers[|layers| - 1] == Stroke(s.drawPath, s.drawPaint)
    ensures s.backgroundLetter != "" <==> layers[0].GuideText?
    ensures s.backgroundLetter != "" ==> layers[0] == GuideText(s.backgroundLetter, s.letterColor)
    ensures forall i :: 0 <= i < |layers| && layers[i].GuideText? ==> i == 0
    ensures s.cache.None? ==> forall i :: 0 <= i < |layers| ==> !layers[i].CacheBitmap?
    ensures s.cache.Some? ==> layers[HistoryOffset(s) - 1] == CacheBitmap(s.cache.value)
    ensures forall i :: 0 <= i < |layers| && layers[i].CacheBitmap? ==> i == HistoryOffset(s) - 1
    ensures forall i :: 0 <= i < |s.paths| ==>
              layers[HistoryOffset(s) + i] == Stroke(s.paths[i].path, s.paths[i].paint)
  {
    var ls := GuideLayers(s) + PaintedLayers(s);
    assert forall i :: HistoryOffset(s) <= i < |ls| ==> ls[i].Stroke?;
    ls
  }

  // ---------------------------------------------------------------------------
  // Event sequences
  // ---------------------------------------------------------------------------

  /** Everything that can happen to the view, one step at a time. */
  datatype ViewEvent =
    | Touch(e: MotionEvent)
    | SizeChanged
    | Clear
    | SetLetter(letter: string)
    | SetColor(color: Int32)
    | SetWidth(width: real)
    | SetGuideColor(color: Int32)

  function Apply(s: State, ev: ViewEvent): State
  {
    match ev
    case Touch(e) => OnTouchEvent(s, e).state
    case SizeChanged => OnSizeChanged(s)
    case Clear => ClearCanvas(s)
    case SetLetter(l) => SetBackgroundLetter(s, l)
    case SetColor(c) => SetDrawingColor(s, c)
    case SetWidth(w) => SetStrokeWidth(s, w)
    case SetGuideColor(c) => SetLetterColor(s, c)
  }

  function Run(s: State, evs: seq<ViewEvent>): State
    decreases |evs|
  {
    if evs == [] then s else Run(Apply(s, evs[0]), evs[1..])
  }

  function IsUp(ev: ViewEvent): bool
  {
    ev.Touch? && ev.e.action == ACTION_UP
  }

  /** Number of `ACTION_UP` touches in `evs`. */
  function CountUps(evs: seq<ViewEvent>): nat
  {
    if evs == [] then 0 else (if IsUp(evs[0]) then 1 else 0) + CountUps(evs[1..])
  }

  /** `onDraw` is the guide layer (if any) followed by everything else. */
  lemma OnDrawSplit(s: State)
    ensures OnDraw(s)[..|GuideLayers(s)|] == GuideLayers(s)
    ensures OnDraw(s)[|GuideLayers(s)|..] == PaintedLayers(s)
  {
    var g := GuideLayers(s);
    assert OnDraw(s) == g + PaintedLayers(s);
  }

  /** The guide letter affects only the guide layer: every other layer is
      drawn exactly as before, whatever the old and new letters. */
  lemma GuideLetterOnlyMovesGuideLayer(s: State, letter: string)
    ensures var after := OnDraw(SetBackgroundLetter(s, letter));
            && (letter != "" ==> after[0] == GuideText(letter, s.letterColor))
            && after[|GuideLayers(SetBackgroundLetter(s, letter))|..] == OnDraw(s)[|GuideLayers(s)|..]
  {
    var t := SetBackgroundLetter(s, letter);
    OnDrawSplit(s);
    OnDrawSplit(t);
    assert PaintedLayers(t) == PaintedLayers(s);
  }

  /** The guide colour affects only the guide layer's colour. */
  lemma GuideColorOnlyRecolorsGuide(s: State, color: Int32)
    ensures var after := OnDraw(SetLetterColor(s, color));
            && |after| == |OnDraw(s)|
            && (s.backgroundLetter != "" ==> after[0] == GuideText(s.backgroundLetter, color))
            && after[|GuideLayers(s)|..] == OnDraw(s)[|GuideLayers(s)|..]
  {
    var t := SetLetterColor(s, color);
    OnDrawSplit(s);
    OnDrawSplit(t);
    assert PaintedLayers(t) == PaintedLayers(s);
  }

  /** `a` is a suffix of `b`. */
  predicate IsSuffix<T(==)>(a: seq<T>, b: seq<T>)
  {
    |a| <= |b| && b[|b| - |a|..] == a
  }

  /** What the cache holds relative to the history: when allocated, exactly
      the most recent history entries (those committed since the last resize
      or clear), in the same order. */
  predicate CacheConsistent(s: State)
  {
    s.cache.Some? ==> IsSuffix(s.cache.value, s.paths)
  }

  lemma ApplyKeepsCacheConsistent(s: State, ev: ViewEvent)
    requires CacheConsistent(s)
    ensures CacheConsistent(Apply(s, ev))
  {
  }

  /** The cache never holds an entry the history lacks, whatever happens to the view. */
  lemma {:induction false} RunKeepsCacheConsistent(s: State, evs: seq<ViewEvent>)
    requires CacheConsistent(s)
    ensures CacheConsistent(Run(s, evs))
    decreases |evs|
  {
    if evs != [] {
      ApplyKeepsCacheConsistent(s, evs[0]);
      RunKeepsCacheConsistent(Apply(s, evs[0]), evs[1..]);
    }
  }

  /** A view starts consistent, so every reachable view is. */
  lemma ReachableCacheConsistent(evs: seq<ViewEvent>)
    ensures CacheConsistent(Run(Initial(), evs))
  {
    RunKeepsCacheConsistent(Initial(), evs);
  }

  /** Every path the view holds, live or committed, is empty or opens with a
      move-to: a line-to never starts a path, since `lineTo` on an empty path
      first moves to the origin. */
  predicate PathsAnchored(s: State)
  {
    && Anchored(s.drawPath)
    && forall i :: 0 <= i < |s.paths| ==> Anchored(s.paths[i].path)
  }

  lemma ApplyKeepsPathsAnchored(s: State, ev: ViewEvent)
    requires PathsAnchored(s)
    ensures PathsAnchored(Apply(s, ev))
  {
  }

  lemma {:induction false} RunKeepsPathsAnchored(s: State, evs: seq<ViewEvent>)
    requires PathsAnchored(s)
    ensures PathsAnchored(Run(s, evs))
    decreases |evs|
  {
    if evs != [] {
      ApplyKeepsPathsAnchored(s, evs[0]);
      RunKeepsPathsAnchored(Apply(s, evs[0]), evs[1..]);
    }
  }

  /** No reachable view holds a path that starts with a line-to. */
  lemma ReachablePathsAnchored(evs: seq<ViewEvent>)
    ensures PathsAnchored(Run(Initial(), evs))
  {
    RunKeepsPathsAnchored(Initial(), evs);
  }

  /** A move right after a clear, with no DOWN in between, draws its line
      from the top-left corner of the view. */
  lemma ClearThenMoveStartsAtOrigin(s: State, p: Point)
    ensures Run(s, [Clear, Touch(MotionEvent(ACTION_MOVE, p))]).drawPath == [MoveTo(ORIGIN), LineTo(p)]
  {
    var mv := Touch(MotionEvent(ACTION_MOVE, p));
    RunCons(s, Clear, [mv]);
    RunCons(ClearCanvas(s), mv, []);
  }

  /** Without a clear, the history is append-only: committed entries are never
      altered (in particular not by later style changes), and it grows by one
      entry per `ACTION_UP`, whether or not a DOWN preceded it. */
  lemma {:induction false} HistoryAppendOnly(s: State, evs: seq<ViewEvent>)
    requires forall i :: 0 <= i < |evs| ==> !evs[i].Clear?
    ensures |Run(s, evs).paths| == |s.paths| + CountUps(evs)
    ensures Run(s, evs).paths[..|s.paths|] == s.paths
    decreases |evs|
  {
    if evs != [] {
      var t := Apply(s, evs[0]);
      assert |t.paths| == |s.paths| + (if IsUp(evs[0]) then 1 else 0);
      assert t.paths[..|s.paths|] == s.paths;
      HistoryAppendOnly(t, evs[1..]);
      var u := Run(t, evs[1..]);
      assert u.paths[..|s.paths|] == u.paths[..|t.paths|][..|s.paths|];
    }
  }

  /** After a clear, followed by events none of which is a clear, the history
      holds exactly one entry per UP among those later events. */
  lemma ClearThenHistory(s: State, evs: seq<ViewEvent>)
    requires forall i :: 0 <= i < |evs| ==> !evs[i].Clear?
    ensures |Run(s, [Clear] + evs).paths| == CountUps(evs)
  {
    assert ([Clear] + evs)[1..] == evs;
    HistoryAppendOnly(ClearCanvas(s), evs);
  }

  // ---------------------------------------------------------------------------
  // Gestures
  // ---------------------------------------------------------------------------

  function MoveEvents(ps: seq<Point>): (evs: seq<ViewEvent>)
    ensures |evs| == |ps|
  {
    if ps == [] then [] else [Touch(MotionEvent(ACTION_MOVE, ps[0]))] + MoveEvents(ps[1..])
  }

  function LineTos(ps: seq<Point>): (cmds: Path)
    ensures |cmds| == |ps|
  {
    if ps == [] then [] else [LineTo(ps[0])] + LineTos(ps[1..])
  }

  /** The touches of one finger stroke: down at `start`, one move per point, up at `end`. */
  function Gesture(start: Point, moves: seq<Point>, end: Point): seq<ViewEvent>
  {
    [Touch(MotionEvent(ACTION_DOWN, start))] + MoveEvents(moves) + [Touch(MotionEvent(ACTION_UP, end))]
  }

  /** Running a non-empty sequence is applying its first event, then the rest. */
  lemma RunCons(s: State, ev: ViewEvent, evs: seq<ViewEvent>)
    ensures Run(s, [ev] + evs) == Run(Apply(s, ev), evs)
  {
    assert ([ev] + evs)[1..] == evs;
  }

  lemma DownStep(s: State, p: Point)
    ensures Apply(s, Touch(MotionEvent(ACTION_DOWN, p))) == s.(drawPath := s.drawPath + [MoveTo(p)])
  {
  }

  lemma ColorStep(s: State, color: Int32)
    ensures Apply(s, SetColor(color)) == s.(drawPaint := s.drawPaint.(color := color))
  {
  }

  lemma UpStep(s: State, p: Point)
    ensures Apply(s, Touch(MotionEvent(ACTION_UP, p))).paths == s.paths + [Snapshot(s)]
  {
  }

  lemma MoveStep(s: State, p: Point)
    ensures Apply(s, Touch(MotionEvent(ACTION_MOVE, p))) == s.(drawPath := PathLineTo(s.drawPath, p))
  {
  }

  /** Every move event becomes exactly one line-to vertex, with no filtering;
      moves with no DOWN since the last reset draw from the origin. */
  lemma {:induction false} MovesExtendLivePath(s: State, ps: seq<Point>)
    ensures s.drawPath != [] || ps == [] ==>
              Run(s, MoveEvents(ps)) == s.(drawPath := s.drawPath + LineTos(ps))
    ensures s.drawPath == [] && ps != [] ==>
              Run(s, MoveEvents(ps)) == s.(drawPath := [MoveTo(ORIGIN)] + LineTos(ps))
    decreases |ps|
  {
    if ps != [] {
      var ev := Touch(MotionEvent(ACTION_MOVE, ps[0]));
      var t := s.(drawPath := PathLineTo(s.drawPath, ps[0]));
      MoveStep(s, ps[0]);
      assert MoveEvents(ps) == [ev] + MoveEvents(ps[1..]);
      RunCons(s, ev, MoveEvents(ps[1..]));
      MovesExtendLivePath(t, ps[1..]);
      assert LineTos(ps) == [LineTo(ps[0])] + LineTos(ps[1..]);
      if s.drawPath == [] {
        assert t.drawPath + LineTos(ps[1..]) == [MoveTo(ORIGIN)] + LineTos(ps);
      } else {
        assert t.drawPath + LineTos(ps[1..]) == s.drawPath + LineTos(ps);
      }
    } else {
      assert s.drawPath + LineTos(ps) == s.drawPath;
    }
  }

  lemma {:induction false} RunConcat(s: State, a: seq<ViewEvent>, b: seq<ViewEvent>)
    ensures Run(s, a + b) == Run(Run(s, a), b)
    decreases |a|
  {
    if a != [] {
      assert a + b == [a[0]] + (a[1..] + b);
      RunCons(s, a[0], a[1..] + b);
      assert a == [a[0]] + a[1..];
      RunCons(s, a[0], a[1..]);
      RunConcat(Apply(s, a[0]), a[1..], b);
    } else {
      assert a + b == b;
    }
  }

  /** One finger stroke commits exactly one entry: the live path as it stood
      before the DOWN, followed by a move-to at the start point and one line-to
      per move (the UP position is not recorded), painted with the paint
      current at the UP. The live path is empty afterwards, and the stroke is
      baked into the cache exactly when one is allocated. */
  lemma GestureCommitsOneStroke(s: State, start: Point, moves: seq<Point>, end: Point)
    ensures var t := Run(s, Gesture(start, moves, end));
            var entry := PathData(s.drawPath + [MoveTo(start)] + LineTos(moves), s.drawPaint);
            && t.drawPath == []
            && t.paths == s.paths + [entry]
            && t.drawPaint == s.drawPaint
            && (s.cache.Some? ==> t.cache == Some(s.cache.value + [entry]))
            && (s.cache.None? ==> t.cache.None?)
  {
    var down := [Touch(MotionEvent(ACTION_DOWN, start))];
    var up := [Touch(MotionEvent(ACTION_UP, end))];
    RunConcat(s, down + MoveEvents(moves), up);
    RunConcat(s, down, MoveEvents(moves));
    var s1 := Run(s, down);
    assert s1 == s.(drawPath := s.drawPath + [MoveTo(start)]);
    MovesExtendLivePath(s1, moves);
  }

  /** The paint is copied at UP, not at DOWN: a colour change in the middle of
      a stroke colours the whole committed stroke. */
  lemma StyleCopiedAtUp(s: State, start: Point, color: Int32, end: Point)
    ensures var t := Run(s, [Touch(MotionEvent(ACTION_DOWN, start)), SetColor(color),
                             Touch(MotionEvent(ACTION_UP, end))]);
            && |t.paths| == |s.paths| + 1
            && t.paths[|s.paths|].paint == s.drawPaint.(color := color)
            && t.paths[|s.paths|].path == s.drawPath + [MoveTo(start)]
  {
    var down := Touch(MotionEvent(ACTION_DOWN, start));
    var up := Touch(MotionEvent(ACTION_UP, end));
    var s1 := s.(drawPath := s.drawPath + [MoveTo(start)]);
    var s2 := s1.(drawPaint := s.drawPaint.(color := color));
    DownStep(s, start);
    ColorStep(s1, color);
    UpStep(s2, end);
    RunCons(s, down, [SetColor(color), up]);
    RunCons(s1, SetColor(color), [up]);
    RunCons(s2, up, []);
  }

  /** A style change after a stroke is committed affects later strokes only. */
  lemma StyleChangeSparesCommitted(s: State, color: Int32, width: real, start: Point, moves: seq<Point>, end: Point)
    ensures var t := Run(SetStrokeWidth(SetDrawingColor(s, color), width), Gesture(start, moves, end));
            && |t.paths| == |s.paths| + 1
            && t.paths[..|s.paths|] == s.paths
            && t.paths[|s.paths|].paint == Paint(color, if width >= 0.0 then width else s.drawPaint.strokeWidth)
  {
    var s2 := SetStrokeWidth(SetDrawingColor(s, color), width);
    GestureCommitsOneStroke(s2, start, moves, end);
  }

  /** After a resize the history keeps every entry while the cache holds none,
      so `onDraw` still paints every committed stroke, but from the list only. */
  lemma ResizeKeepsHistoryDrawn(s: State)
    ensures OnSizeChanged(s).paths == s.paths
    ensures OnDraw(OnSizeChanged(s))[HistoryOffset(OnSizeChanged(s)) - 1] == CacheBitmap([])
    ensures forall i :: 0 <= i < |s.paths| ==>
              OnDraw(OnSizeChanged(s))[HistoryOffset(OnSizeChanged(s)) + i] == Stroke(s.paths[i].path, s.paths[i].paint)
  {
    ResizedCacheLayer(s);
    ResizedHistoryLayers(s);
  }

  /** The two halves of `ResizeKeepsHistoryDrawn`, one layer fact each. */
  lemma ResizedCacheLayer(s: State)
    ensures OnDraw(OnSizeChanged(s))[HistoryOffset(OnSizeChanged(s)) - 1] == CacheBitmap([])
  {
  }

  lemma ResizedHistoryLayers(s: State)
    ensures forall i :: 0 <= i < |s.paths| ==>
              OnDraw(OnSizeChanged(s))[HistoryOffset(OnSizeChanged(s)) + i] == Stroke(s.paths[i].path, s.paths[i].paint)
  {
  }

  /** Strokes are drawn twice: in a consistent view with a cache, every entry
      baked into the cache bitmap is also painted again from the history, on
      top of the bitmap. */
  lemma BakedStrokesDrawnTwice(s: State, j: nat)
    requires CacheConsistent(s) && s.cache.Some? && j < |s.cache.value|
    ensures var layers := OnDraw(s);
            var k := HistoryOffset(s) + |s.paths| - |s.cache.value| + j;
            && HistoryOffset(s) - 1 < k < |layers| - 1
            && layers[HistoryOffset(s) - 1] == CacheBitmap(s.cache.value)
            && layers[k] == Stroke(s.cache.value[j].path, s.cache.value[j].paint)
  {
    var i := |s.paths| - |s.cache.value| + j;
    assert s.paths[i] == s.paths[|s.paths| - |s.cache.value|..][j] == s.cache.value[j];
  }

  /** `clearCanvas` leaves only the guide letter (if any), an empty cache
      bitmap (if allocated) and an empty live path to draw, whatever came before. */
  lemma ClearLeavesGuideOnly(s: State)
    ensures var layers := OnDraw(ClearCanvas(s));
            && |layers| == HistoryOffset(s) + 1
            && layers[|layers| - 1] == Stroke([], s.drawPaint)
            && (s.backgroundLetter != "" ==> layers[0] == GuideText(s.backgroundLetter, s.letterColor))
            && (s.cache.Some? ==> layers[HistoryOffset(s) - 1] == CacheBitmap([]))
  {
  }

  // ---------------------------------------------------------------------------
  // Concrete scenarios
  // ---------------------------------------------------------------------------

  /** Down at (10,10), moves to (20,10) and (30,10), up: one stroke with three
      vertices, in the default paint. */
  lemma ThreePointStroke()
    ensures var t := Run(Initial(), Gesture(Point(10.0, 10.0), [Point(20.0, 10.0), Point(30.0, 10.0)], Point(30.0, 10.0)));
            && |t.paths| == 1
            && t.paths[0].path == [MoveTo(Point(10.0, 10.0)), LineTo(Point(20.0, 10.0)), LineTo(Point(30.0, 10.0))]
            && t.paths[0].paint == Paint(DEFAULT_STROKE_COLOR, DEFAULT_STROKE_WIDTH)
            && t.drawPath == []
  {
  }

  /** Two DOWNs before an UP do not start a new stroke: they make two contours
      of one committed path. */
  lemma SecondDownSameStroke(a: Point, b: Point, c: Point)
    ensures var t := Run(Initial(), [Touch(MotionEvent(ACTION_DOWN, a)), Touch(MotionEvent(ACTION_DOWN, b)),
                                     Touch(MotionEvent(ACTION_UP, c))]);
            t.paths == [PathData([MoveTo(a), MoveTo(b)], Initial().drawPaint)]
  {
    var d1 := Touch(MotionEvent(ACTION_DOWN, a));
    var d2 := Touch(MotionEvent(ACTION_DOWN, b));
    var up := Touch(MotionEvent(ACTION_UP, c));
    var s1 := Apply(Initial(), d1);
    var s2 := Apply(s1, d2);
    RunCons(Initial(), d1, [d2, up]);
    RunCons(s1, d2, [up]);
    RunCons(s2, up, []);
    assert s2.drawPath == [MoveTo(a), MoveTo(b)];
  }

  /** An UP with no DOWN still commits an entry, with an empty path. */
  lemma LoneUpCommitsEmptyPath(p: Point)
    ensures Run(Initial(), [Touch(MotionEvent(ACTION_UP, p))]).paths == [PathData([], Initial().drawPaint)]
  {
  }
}

=== FILE: letter_tracing.dfy ===
/** The tracing screen of `LetterTracingActivity.kt`: choosing the starting
    letter from the launching intent, the Next / Previous / Clear buttons, the
    canvas reset on every letter display, and the progress upsert run by Next.
    The screen's state is a value holding the catalogue, the current index,
    the drawing view and the progress table; every handler is a function from
    one state to the next. */
module LetterTracing {
  import opened Wrappers
  import opened KotlinInts
  import opened Alphabet
  import DrawingView
  import opened Progress

  /** The intent extras the screen reads; `None` is an absent extra. */
  datatype Intent = Intent(alphabetExtra: Option<string>, letterIdExtra: Option<Int32>)

  /** The screen's fields that the handlers read or write, plus the progress
      table the DAO works on. */
  datatype Screen = Screen(
    alphabet: AlphabetType,
    letters: seq<Letter>,
    index: int,
    view: DrawingView.State,
    table: Table)

  /** Why `onCreate` throws: `AlphabetType.valueOf` rejects the extra, or the
      catalogue is empty so `letters[0]` is out of bounds. */
  datatype CreateError = UnknownAlphabet(name: string) | EmptyCatalogue

  /** The alphabet a screen opens on: the extra's value, FRENCH when it is absent. */
  function AlphabetOf(intent: Intent): (r: Result<AlphabetType, CreateError>)
    ensures intent.alphabetExtra.None? ==> r == Success(FRENCH)
    ensures intent.alphabetExtra.Some? ==>
              (r.Success? <==> ValueOf(intent.alphabetExtra.value).Success?)
    ensures r.Success? && intent.alphabetExtra.Some? ==> r.value.Name() == intent.alphabetExtra.value
    ensures r.Failure? ==> intent.alphabetExtra.Some? && r.error == UnknownAlphabet(intent.alphabetExtra.value)
  {
    var name := intent.alphabetExtra.GetOr(FRENCH.Name());
    match ValueOf(name)
    case Success(t) => Success(t)
    case Failure(_) => Failure(UnknownAlphabet(name))
  }

  /** Kotlin's `indexOfFirst { it.id == id }`: the first position holding
      that id, or -1 when none does. */
  function IndexOfFirst(letters: seq<Letter>, id: Int32): (k: int)
    ensures -1 <= k < |letters|
    ensures k >= 0 ==> letters[k].id == id
    ensures forall j :: 0 <= j < k ==> letters[j].id != id
    ensures k == -1 <==> forall j :: 0 <= j < |letters| ==> letters[j].id != id
    decreases |letters|
  {
    if letters == [] then -1
    else if letters[0].id == id then 0
    else
      var k := IndexOfFirst(letters[1..], id);
      if k < 0 then -1 else k + 1
  }

  /** `indexOfFirst { ... }.coerceAtLeast(0)`: the first match, or 0. */
  function StartIndex(letters: seq<Letter>, id: Int32): (k: int)
    requires |letters| > 0
    ensures 0 <= k < |letters|
    ensures (exists j :: 0 <= j < |letters| && letters[j].id == id) ==>
              letters[k].id == id && forall j :: 0 <= j < k ==> letters[j].id != id
    ensures (forall j :: 0 <= j < |letters| ==> letters[j].id != id) ==> k == 0
  {
    var k := IndexOfFirst(letters, id);
    if k < 0 then 0 else k
  }

  /** `displayCurrentLetter`, as far as the model goes: the canvas is cleared.
      (The letter and name text views and the pronunciation are not modelled.) */
  function DisplayCurrentLetter(s: Screen): (r: Screen)
    ensures r.view.paths == [] && r.view.drawPath == []
    ensures r.view.cache.Some? <==> s.view.cache.Some?
    ensures r.view.cache.Some? ==> r.view.cache.value == []
    ensures r.view.drawPaint == s.view.drawPaint
    ensures r.view.backgroundLetter == s.view.backgroundLetter && r.view.letterColor == s.view.letterColor
    ensures r.(view := s.view) == s
  {
    s.(view := DrawingView.ClearCanvas(s.view))
  }

  /** `onCreate`: resolve the alphabet (FRENCH by default), load its catalogue
      with `load`, pick the first letter whose id is the requested one (by
      default the catalogue's first id, which fails on an empty catalogue
      even when an id was supplied, because the default is evaluated first),
      falling back to index 0, then display that letter on a fresh view. */
  function OnCreate(intent: Intent, load: AlphabetType -> seq<Letter>, table: Table): (r: Result<Screen, CreateError>)
    ensures r.Failure? <==> AlphabetOf(intent).Failure? || |load(AlphabetOf(intent).value)| == 0
    ensures AlphabetOf(intent).Failure? ==> r == Failure(AlphabetOf(intent).error)
    ensures AlphabetOf(intent).Success? && |load(AlphabetOf(intent).value)| == 0 ==> r == Failure(EmptyCatalogue)
    ensures r.Success? ==>
              && r.value.alphabet == AlphabetOf(intent).value
              && r.value.letters == load(r.value.alphabet)
              && 0 <= r.value.index < |r.value.letters|
              && r.value.index == StartIndex(r.value.letters, intent.letterIdExtra.GetOr(r.value.letters[0].id))
              && r.value.view == DrawingView.ClearCanvas(DrawingView.Initial())
              && r.value.table == table
  {
    var alphabet :- AlphabetOf(intent);
    var letters := load(alphabet);
    if |letters| == 0 then Failure(EmptyCatalogue)
    else
      var id := intent.letterIdExtra.GetOr(letters[0].id);
      var s := Screen(alphabet, letters, StartIndex(letters, id), DrawingView.Initial(), table);
      Success(DisplayCurrentLetter(s))
  }

  /** Without a letter extra the screen opens on the first letter. */
  lemma DefaultStartsAtFirst(intent: Intent, load: AlphabetType -> seq<Letter>, table: Table)
    requires intent.letterIdExtra.None?
    requires OnCreate(intent, load, table).Success?
    ensures OnCreate(intent, load, table).value.index == 0
  {
  }

  /** Without an alphabet extra the screen opens the French catalogue. */
  lemma DefaultAlphabetIsFrench(load: AlphabetType -> seq<Letter>, table: Table, id: Option<Int32>)
    requires |load(FRENCH)| > 0
    ensures OnCreate(Intent(None, id), load, table).Success?
    ensures OnCreate(Intent(None, id), load, table).value.alphabet == FRENCH
  {
  }

  // ---------------------------------------------------------------------------
  // Progress upsert
  // ---------------------------------------------------------------------------

  /** `saveProgress` as one atomic step with the clock reading `now`: an
      existing row for the letter gets its counter incremented (Kotlin `Int`
      arithmetic) and its date set to `now`, keeping its id and alphabet; a
      letter without a row gets a new one with count 1 under the current
      alphabet's name. The primary-key constraint holds of every table the
      database holds. */
  function SaveProgress(table: Table, letter: Letter, alphabet: AlphabetType, now: Int64): (r: Table)
    requires Keyed(table)
    ensures Keyed(r)
    ensures r.Keys == table.Keys + {letter.id}
    ensures forall id :: id in table && id != letter.id ==> r[id] == table[id]
    ensures r[letter.id].letterId == letter.id
    ensures r[letter.id].lastCompletedDate == now
    ensures letter.id in table ==>
              && r[letter.id].timesCompleted == Inc32(table[letter.id].timesCompleted)
              && r[letter.id].alphabetType == table[letter.id].alphabetType
    ensures letter.id !in table ==>
              && r[letter.id].timesCompleted == 1
              && r[letter.id].alphabetType == alphabet.Name()
  {
    match GetProgressById(table, letter.id)
    case Some(existing) =>
      UpdateProgress(table, existing.(timesCompleted := Inc32(existing.timesCompleted), lastCompletedDate := now))
    case None =>
      InsertProgress(table, LetterProgress(letter.id, alphabet.Name(), 1, now))
  }

  /** `n` consecutive saves of the same letter at the same clock reading:
      the table keeps its primary key, no other row is touched, and a letter
      saved `n` times from no row has a row counting `n` (while `n` fits in
      an `Int`) under the alphabet of the first save. */
  function SaveTimes(table: Table, letter: Letter, alphabet: AlphabetType, now: Int64, n: nat): (r: Table)
    requires Keyed(table)
    ensures Keyed(r)
    ensures letter.id !in table && 0 < n <= INT_MAX ==>
              && letter.id in r
              && r[letter.id].timesCompleted == n
              && r[letter.id].alphabetType == alphabet.Name()
              && r.Keys == table.Keys + {letter.id}
    ensures forall id :: id in table && id != letter.id ==> id in r && r[id] == table[id]
    decreases n
  {
    if n == 0 then table else SaveProgress(SaveTimes(table, letter, alphabet, now, n - 1), letter, alphabet, now)
  }

  /** Saving a letter `n` times in a row, starting from a table without it,
      leaves a counter of exactly `n` (as long as `n` fits in an `Int`) under
      the alphabet of the first save, and every other row as it was. */
  lemma SaveCountsCompletions(table: Table, letter: Letter, alphabet: AlphabetType, now: Int64, n: nat)
    requires Keyed(table) && letter.id !in table
    requires 0 < n <= INT_MAX
    ensures var r := SaveTimes(table, letter, alphabet, now, n);
            && letter.id in r
            && r[letter.id].timesCompleted == n
            && r[letter.id].alphabetType == alphabet.Name()
            && r.Keys == table.Keys + {letter.id}
            && forall id :: id in table ==> id in r && r[id] == table[id]
  {
  }

  // ---------------------------------------------------------------------------
  // Buttons
  // ---------------------------------------------------------------------------

  /** The screen's invariant: a non-empty catalogue with the index inside it,
      a table obeying its primary key and a drawing view whose cache matches
      its history. */
  predicate Valid(s: Screen)
  {
    && |s.letters| > 0
    && 0 <= s.index < |s.letters|
    && Keyed(s.table)
    && DrawingView.CacheConsistent(s.view)
  }

  /** Next: before the last letter, save progress for the current letter,
      advance by exactly one and display; on the last letter nothing changes
      (the encouragement toast is not modelled). */
  function OnNext(s: Screen, now: Int64): (r: Screen)
    requires Valid(s)
    ensures Valid(r)
    ensures s.index < |s.letters| - 1 ==>
              && r.index == s.index + 1
              && r.table == SaveProgress(s.table, s.letters[s.index], s.alphabet, now)
              && r.view == DrawingView.ClearCanvas(s.view)
              && r.letters == s.letters && r.alphabet == s.alphabet
    ensures s.index == |s.letters| - 1 ==> r == s
  {
    if s.index < |s.letters| - 1 then
      var saved := SaveProgress(s.table, s.letters[s.index], s.alphabet, now);
      DisplayCurrentLetter(s.(table := saved, index := s.index + 1))
    else
      s
  }

  /** Previous: after the first letter, step back by exactly one and display;
      on the first letter nothing changes. Progress is never touched. */
  function OnPrevious(s: Screen): (r: Screen)
    ensures r.table == s.table && r.letters == s.letters && r.alphabet == s.alphabet
    ensures s.index > 0 ==> r.index == s.index - 1 && r.view == DrawingView.ClearCanvas(s.view)
    ensures s.index <= 0 ==> r == s
    ensures Valid(s) ==> Valid(r)
  {
    if s.index > 0 then DisplayCurrentLetter(s.(index := s.index - 1)) else s
  }

  /** Clear: the canvas is cleared and nothing else changes. */
  function OnClear(s: Screen): (r: Screen)
    ensures r.view == DrawingView.ClearCanvas(s.view)
    ensures r.index == s.index && r.table == s.table && r.letters == s.letters
    ensures r.(view := s.view) == s
    ensures Valid(s) ==> Valid(r)
  {
    s.(view := DrawingView.ClearCanvas(s.view))
  }

  /** Next on any letter but the last counts one more completion of the letter
      that was shown, stamped with the press's clock reading. */
  lemma NextCountsShownLetter(s: Screen, now: Int64)
    requires Valid(s) && s.index < |s.letters| - 1
    ensures var id := s.letters[s.index].id;
            var r := OnNext(s, now);
            && id in r.table
            && r.table[id].lastCompletedDate == now
            && (id in s.table && s.table[id].timesCompleted < INT_MAX ==>
                  r.table[id].timesCompleted == s.table[id].timesCompleted + 1)
            && (id !in s.table ==> r.table[id].timesCompleted == 1)
  {
  }

  // ---------------------------------------------------------------------------
  // Whole sessions
  // ---------------------------------------------------------------------------

  /** What can happen on the screen: the three buttons (Next with the clock
      reading of its save) and the framework's calls into the drawing view. */
  datatype UiEvent =
    | NextClicked(now: Int64)
    | PreviousClicked
    | ClearClicked
    | Touched(e: DrawingView.MotionEvent)
    | Resized

  function Step(s: Screen, ev: UiEvent): (r: Screen)
    requires Valid(s)
    ensures Valid(r)
    ensures r.letters == s.letters
  {
    match ev
    case NextClicked(now) => OnNext(s, now)
    case PreviousClicked => OnPrevious(s)
    case ClearClicked => OnClear(s)
    case Touched(e) =>
      DrawingView.ApplyKeepsCacheConsistent(s.view, DrawingView.Touch(e));
      s.(view := DrawingView.OnTouchEvent(s.view, e).state)
    case Resized =>
      DrawingView.ApplyKeepsCacheConsistent(s.view, DrawingView.SizeChanged);
      s.(view := DrawingView.OnSizeChanged(s.view))
  }

  function Session(s: Screen, evs: seq<UiEvent>): (r: Screen)
    requires Valid(s)
    decreases |evs|
  {
    if evs == [] then s else Session(Step(s, evs[0]), evs[1..])
  }

  /** The index stays inside the catalogue, and the table and view keep their
      invariants, through any sequence of button presses and touches. */
  lemma {:induction false} SessionStaysValid(s: Screen, evs: seq<UiEvent>)
    requires Valid(s)
    ensures Valid(Session(s, evs))
    ensures Session(s, evs).letters == s.letters
    decreases |evs|
  {
    if evs != [] {
      SessionStaysValid(Step(s, evs[0]), evs[1..]);
    }
  }

  /** Every screen `onCreate` produces from a table obeying its primary key is valid. */
  lemma CreatedScreenValid(intent: Intent, load: AlphabetType -> seq<Letter>, table: Table)
    requires Keyed(table)
    requires OnCreate(intent, load, table).Success?
    ensures Valid(OnCreate(intent, load, table).value)
  {
  }

  /** Only Next moves the index forward, by one; only Previous moves it back, by one. */
  lemma IndexMovesByOne(s: Screen, ev: UiEvent)
    requires Valid(s)
    ensures var r := Step(s, ev);
            && (ev.NextClicked? ==> r.index == s.index || r.index == s.index + 1)
            && (ev.PreviousClicked? ==> r.index == s.index || r.index == s.index - 1)
            && (!ev.NextClicked? && !ev.PreviousClicked? ==> r.index == s.index)
  {
  }

  /** Only Next writes the table, and then only for the letter shown before the press. */
  lemma OnlyNextWritesProgress(s: Screen, ev: UiEvent)
    requires Valid(s)
    ensures var r := Step(s, ev);
            && (!ev.NextClicked? ==> r.table == s.table)
            && r.table.Keys <= s.table.Keys + {s.letters[s.index].id}
            && forall id :: id in s.table && id != s.letters[s.index].id ==> id in r.table && r.table[id] == s.table[id]
  {
  }

  /** Next on the last letter saves nothing, so the last letter of a
      catalogue is never counted: whatever the child does on the screen, its
      row stays as it was (when no earlier letter shares its id). */
  lemma {:induction false} LastLetterNeverCounted(s: Screen, evs: seq<UiEvent>)
    requires Valid(s)
    requires forall j :: 0 <= j < |s.letters| - 1 ==> s.letters[j].id != s.letters[|s.letters| - 1].id
    ensures var id := s.letters[|s.letters| - 1].id;
            var r := Session(s, evs);
            && (id in r.table <==> id in s.table)
            && (id in s.table ==> r.table[id] == s.table[id])
    decreases |evs|
  {
    if evs != [] {
      var t := Step(s, evs[0]);
      var id := s.letters[|s.letters| - 1].id;
      assert id in t.table <==> id in s.table;
      assert id in s.table ==> t.table[id] == s.table[id];
      LastLetterNeverCounted(t, evs[1..]);
    }
  }

  /** The screen never calls `setBackgroundLetter` or `setLetterColor`, and
      no button switches the alphabet: through any session the guide letter,
      the guide colour and the alphabet stay as they were. A screen fresh from
      `onCreate` therefore never shows a guide letter. */
  lemma {:induction false} GuideNeverSet(s: Screen, evs: seq<UiEvent>)
    requires Valid(s)
    ensures var r := Session(s, evs);
            && r.view.backgroundLetter == s.view.backgroundLetter
            && r.view.letterColor == s.view.letterColor
            && r.alphabet == s.alphabet
    decreases |evs|
  {
    if evs != [] {
      GuideNeverSet(Step(s, evs[0]), evs[1..]);
    }
  }

  /** A finger still moving on the canvas after Clear draws from the
      canvas's top-left corner: `clearCanvas` resets the live path, and the
      next `lineTo` opens it at the origin. */
  lemma ClearThenMoveDrawsFromOrigin(s: Screen, p: DrawingView.Point)
    requires Valid(s)
    ensures Session(s, [ClearClicked, Touched(DrawingView.MotionEvent(DrawingView.ACTION_MOVE, p))]).view.drawPath
            == [DrawingView.MoveTo(DrawingView.ORIGIN), DrawingView.LineTo(p)]
  {
    var mv := Touched(DrawingView.MotionEvent(DrawingView.ACTION_MOVE, p));
    var t := Step(s, ClearClicked);
    assert [ClearClicked, mv][1..] == [mv];
    assert Session(s, [ClearClicked, mv]) == Session(t, [mv]);
    assert Session(t, [mv]) == Step(t, mv);
  }
}

=== FILE: progress.dfy ===
/** The `letter_progress` table: the `LetterProgress` entity of
    `data/LetterProgress.kt` and the queries of `data/LetterProgressDao.kt`,
    with the table modelled as a map from the primary key `letterId` to the
    row. Room's asynchronous delivery and `LiveData` wrapping are not modelled:
    each query is one atomic step over the table value. */
module Progress {
  import opened Wrappers
  import opened KotlinInts

  /** One row. `alphabetType` holds an alphabet's name ("ARABIC" or "FRENCH");
      `lastCompletedDate` is milliseconds since the epoch, 0 meaning never. */
  datatype LetterProgress = LetterProgress(
    letterId: Int32,
    alphabetType: string,
    timesCompleted: Int32,
    lastCompletedDate: Int64)

  /** The Kotlin constructor called with only the two mandatory arguments:
      never completed, no completion date. */
  function NewLetterProgress(letterId: Int32, alphabetType: string): (p: LetterProgress)
    ensures p.letterId == letterId && p.alphabetType == alphabetType
    ensures p.timesCompleted == 0
    ensures p.lastCompletedDate == 0
  {
    LetterProgress(letterId, alphabetType, 0, 0)
  }

  /** The table, keyed by the primary key. */
  type Table = map<Int32, LetterProgress>

  /** The primary-key constraint: every row is filed under its own `letterId`,
      so there is at most one row per letter. */
  function Keyed(t: Table): (b: bool)
    ensures b ==> forall p :: p in t.Values ==> p.letterId in t && t[p.letterId] == p
  {
    forall id :: id in t ==> t[id].letterId == id
  }

  /** `getProgressById`: the row for `id`, or null when the letter was never practised. */
  function GetProgressById(t: Table, id: Int32): (r: Option<LetterProgress>)
    ensures r.Some? <==> id in t
    ensures r.Some? ==> r.value in t.Values
    ensures Keyed(t) ==> (r.Some? <==> exists p :: p in t.Values && p.letterId == id)
    ensures Keyed(t) && r.Some? ==> r.value.letterId == id
  {
    if id in t then Some(t[id]) else None
  }

  /** `insertProgress` with `OnConflictStrategy.REPLACE`: the row takes the
      place of any row with the same `letterId`, or is added. */
  function InsertProgress(t: Table, p: LetterProgress): (r: Table)
    ensures Keyed(t) ==> Keyed(r)
    ensures r.Keys == t.Keys + {p.letterId}
    ensures p in r.Values
    ensures forall id :: id in t && id != p.letterId ==> r[id] == t[id]
  {
    t[p.letterId := p]
  }

  /** `updateProgress` (Room `@Update`): overwrites the row whose primary key
      is `p.letterId`; when there is none, zero rows are updated and the table
      is unchanged. */
  function UpdateProgress(t: Table, p: LetterProgress): (r: Table)
    ensures Keyed(t) ==> Keyed(r)
    ensures r.Keys == t.Keys
    ensures p.letterId in t ==> r[p.letterId] == p
    ensures p.letterId !in t ==> r == t
    ensures forall id :: id in t && id != p.letterId ==> r[id] == t[id]
  {
    if p.letterId in t then t[p.letterId := p] else t
  }

  /** `deleteAllProgress`: every row is removed. */
  function DeleteAllProgress(t: Table): (r: Table)
    ensures Keyed(r)
    ensures forall id :: GetProgressById(r, id).None?
  {
    map[]
  }

  /** `getProgressByType`: the rows whose `alphabetType` is exactly `type`.
      The query has no ORDER BY, so the result is a set. */
  function GetProgressByType(t: Table, alphabetType: string): (r: set<LetterProgress>)
    ensures forall p :: p in r <==> p in t.Values && p.alphabetType == alphabetType
  {
    set id | id in t && t[id].alphabetType == alphabetType :: t[id]
  }

  // ---------------------------------------------------------------------------
  // Properties relating the queries
  // ---------------------------------------------------------------------------

  /** A keyed table holds at most one row per letter. */
  lemma AtMostOneRowPerLetter(t: Table, p: LetterProgress, q: LetterProgress)
    requires Keyed(t) && p in t.Values && q in t.Values
    requires p.letterId == q.letterId
    ensures p == q
  {
  }

  /** Reading back what was just inserted yields exactly that row, and every
      other letter reads as before. */
  lemma InsertThenGet(t: Table, p: LetterProgress, id: Int32)
    ensures GetProgressById(InsertProgress(t, p), p.letterId) == Some(p)
    ensures id != p.letterId ==> GetProgressById(InsertProgress(t, p), id) == GetProgressById(t, id)
  {
  }

  /** Inserting a row twice is inserting it once. */
  lemma InsertIdempotent(t: Table, p: LetterProgress)
    ensures InsertProgress(InsertProgress(t, p), p) == InsertProgress(t, p)
  {
  }

  /** On a row that exists, update and insert-with-replace agree; otherwise
      update reads back nothing where insert would add the row. */
  lemma UpdateVersusInsert(t: Table, p: LetterProgress)
    ensures p.letterId in t ==> UpdateProgress(t, p) == InsertProgress(t, p)
    ensures p.letterId !in t ==> GetProgressById(UpdateProgress(t, p), p.letterId) == None
  {
  }

  /** The by-type query sees an inserted row under its own type and under no
      other, and sees nothing at all after a delete-all. */
  lemma ByTypeAfterInsert(t: Table, p: LetterProgress, other: string)
    ensures p in GetProgressByType(InsertProgress(t, p), p.alphabetType)
    ensures other != p.alphabetType ==> p !in GetProgressByType(InsertProgress(t, p), other)
    ensures GetProgressByType(DeleteAllProgress(t), other) == {}
  {
  }

  /** Every row falls under exactly one type, so the per-type results partition the table. */
  lemma ByTypePartition(t: Table, a: string, b: string)
    requires a != b
    ensures GetProgressByType(t, a) !! GetProgressByType(t, b)
    ensures GetProgressByType(t, a) <= t.Values
  {
  }
}

=== FILE: wrappers.dfy ===
/** Failure-compatible wrappers used across the model: `Option` stands for a
    Kotlin nullable (`T?`), `Result` for a call that may throw. */
module Wrappers {

  datatype Option<+T> = None | Some(value: T)
  {
    /** The value, or `default` when absent (Kotlin's `?:`). */
    function GetOr(default: T): T
    {
      match this
      case Some(v) => v
      case None => default
    }
  }

  datatype Result<+T, +E> = Success(value: T) | Failure(error: E)
  {
    predicate IsFailure()
    {
      Failure?
    }

    function PropagateFailure<U>(): Result<U, E>
      requires Failure?
    {
      Failure(error)
    }

    function Extract(): T
      requires Success?
    {
      value
    }
  }
}

/** Kotlin's fixed-width integers. The model keeps values as mathematical
    integers constrained to the Kotlin range, and spells out wrap-around where
    the program can overflow. */
module KotlinInts {

  const INT_MIN: int := -0x8000_0000
  const INT_MAX: int := 0x7FFF_FFFF
  const LONG_MIN: int := -0x8000_0000_0000_0000
  const LONG_MAX: int := 0x7FFF_FFFF_FFFF_FFFF

  /** Kotlin `Int`. */
  type Int32 = x: int | INT_MIN <= x <= INT_MAX

  /** Kotlin `Long`. */
  type Int64 = x: int | LONG_MIN <= x <= LONG_MAX

  /** Kotlin `n + 1` on an `Int`: two's-complement wrap-around at `Int.MAX_VALUE`. */
  function Inc32(n: Int32): (r: Int32)
    ensures n < INT_MAX ==> r == n + 1
    ensures n == INT_MAX ==> r == INT_MIN
    ensures r == (n + 1 - INT_MIN) % 0x1_0000_0000 + INT_MIN
  {
    if n == INT_MAX then INT_MIN else n + 1
  }
}
